=== FILE: README.md ===
# FileExplorer navigator, modelled in Dafny

This project models the `FileExplorer` class of the Anteris file-explorer
library (`src/FileExplorer.php`). The class is a filesystem navigator. Its only
state is the string `pointer`, the current directory. It resolves relative
paths against that pointer, moves the pointer down (`enterDirectory`) and up
(`goUp`), creates directories and files, checks existence, and lists the
current directory as name-sorted File/Directory entries.

The model has three modules:

- `Paths` (`paths.dfy`) holds the pure string helpers. These are
  `cleanupDirectorySlashes`, `joinPaths` and the PHP built-ins they use
  (`str_replace`, `rtrim`, `ltrim`, `trim`, `substr(…, 0, -1)`, `strrpos`).
  `joinPaths` is given twice: as a reference function `JoinPaths`, and as
  `JoinPathsLoop`, the source's `foreach` loop with its `firstPath` flag,
  proved equal to the function.
- `FileExplorer` (`explorer.dfy`) holds the state machine. The state
  `Explorer(pointer, fs)` is the pointer plus an abstract filesystem.
  - The filesystem is a map to `FileNode(contents)` or `DirNode`. Each
    object is stored once, under its `Key`: its path without trailing
    slashes, the root being `/`. As on POSIX, a path with a trailing slash
    names only a directory.
  - Every operation returns `Ok(next state)` or `Err(error kind)`. An error
    carries no state, so a failed operation changes nothing.
  - The platform's `isAbsolutePath` test is foreign code. Every operation
    takes it as an uninterpreted parameter `isAbsolute: string -> bool`.
    Where a property needs more, the lemma names the exact facts it assumes
    about `isAbsolute`, for example `isAbsolute("/")`.
- `Listing` (`listing.dfy`) holds `getDirectoryContents` and
  `sortFileObjects`. The directory iterator is foreign I/O, so its output is
  an input sequence of `RawItem(name, path, kind)`. The model drops dot
  entries and items that are neither a directory nor a file, tags each
  remaining item, and sorts by name with a stable insertion sort.

The model follows the code in these places, where its behaviour is easy to
misread:

- **`goUp` from one level below the root.** `goUp` cuts the pointer at the
  last slash before its final character. For `"/home/"` that slash is at
  index 0, so the candidate parent is `""` and the call fails with the
  root-boundary error, just as it does from `"/"`. `GoUpFromTopLevel` states
  this.
- **The string `"0"`.** `goUp` tests the candidate with PHP's `!$directory`,
  which is also true for the string `"0"`. The model fails on `"0"` too.
- **`exists` with a relative name.** `exists` joins a relative argument onto
  the pointer with `joinPaths`, which always appends a slash. A path with a
  trailing slash names only a directory, so `exists("a.txt")` is false even
  when the file `a.txt` is in the current directory.
  `ExistsRelativeFindsOnlyDirectories` states this.
- **Files and directories share names.** The filesystem stores each object
  once, under its path without trailing slashes, so `/d/x` and `/d/x/` are
  the same object. A file `x` makes `createDirectory("x")` fail, because
  mkdir of `x/` finds a file in the way (`FileBlocksDirectory`). A directory
  `x` makes `createFile("x", …)` fail with already-exists; with `overwrite`
  set, `file_put_contents` fails with only a warning, the call returns
  normally and nothing changes (`DirectoryBlocksFile`). The same holds for a
  write into a directory that does not exist.
- **Relative start directory.** The constructor's existence check runs before
  `pointer` is assigned. A relative start directory therefore reads the unset
  pointer, which raises a PHP `Error`. The model returns
  `Err(PointerUninitialised)`.
- **The name comparator.** The source's comparator, `($a->name < $b->name) ? -1 : 1`,
  never returns 0, and `usort` does not promise stability. The model uses a
  plain non-decreasing lexicographic order and a stable sort. It proves only
  that the result is sorted and is a permutation of the input.

## Model

| member | source | states |
|---|---|---|
| `Paths.ReplaceBackslashes` | src/FileExplorer.php:224 | each character is kept, except that a backslash becomes `/`; the result has no backslash |
| `Paths.RTrim` | src/FileExplorer.php:224 | `rtrim`: the result is a prefix of the input; everything after it is a stripped character; the result does not end in one |
| `Paths.LTrim` | src/FileExplorer.php:209 | `ltrim`: the result is a suffix of the input; everything before it is a stripped character; the result does not start with one |
| `Paths.Trim` | src/FileExplorer.php:209 | `trim`: the result is a prefix of the left-trimmed input, only stripped characters follow it there, and it neither starts nor ends with a stripped character |
| `Paths.TrimAddsNothing` | src/FileExplorer.php:209 | trimming introduces no character that the input does not hold |
| `Paths.TrimKeepsInner` | src/FileExplorer.php:209 | a string holding a character outside the stripped set does not trim to `""` |
| `Paths.CleanupDirectorySlashes` | src/FileExplorer.php:222-225 | the result has no backslash and ends in exactly one `/`; without its slash it is a prefix of the converted input; only separators of the input are dropped |
| `Paths.CleanupFixpoint` | src/FileExplorer.php:222-225 | a string is left unchanged by the clean-up exactly when it already has the normalized shape |
| `Paths.CleanupIdempotent` | src/FileExplorer.php:224 | cleaning twice gives the same result as cleaning once |
| `Paths.CleanupAllSeparators` | src/FileExplorer.php:224 | the result is `"/"` exactly when the input is made only of `/` and `\` (the empty input included) |
| `Paths.RTrimAll` | src/FileExplorer.php:224 | right-trimming a string made only of stripped characters gives `""` |
| `Paths.CleanupPlainName` | src/FileExplorer.php:89 | a non-empty name without separators gains exactly one trailing `/` |
| `Paths.TrimPlainName` | src/FileExplorer.php:204-209 | a non-empty name without separators is unchanged by trimming, also when it carries one trailing `/` |
| `Paths.JoinPaths` | src/FileExplorer.php:197-213 | no segments give `""`; otherwise the result is non-empty, ends in `/`, and starts with the right-trimmed first segment followed by `/` |
| `Paths.JoinPathsLoop` | src/FileExplorer.php:197-213 | the source's loop with the `firstPath` flag computes exactly `JoinPaths` |
| `Paths.JoinPathsStep` | src/FileExplorer.php:202-210 | one more segment extends the join: the first segment is right-trimmed, and each later one is trimmed and appended after the join of the segments before it, each followed by `/` |
| `Paths.JoinTwo` | src/FileExplorer.php:202-210 | two segments join into `rtrim(first) + "/" + trim(second) + "/"` |
| `Paths.JoinOntoNormalized` | src/FileExplorer.php:197-213 | joining a path onto a normalized directory gives the directory, the path trimmed of separators on both ends, and `/` |
| `Paths.TrimNormalized` | src/FileExplorer.php:209 | a normalized directory other than `/` trims to a non-empty name without backslash that does not end in a separator |
| `Paths.DropLast` | src/FileExplorer.php:171 | `substr(s, 0, -1)` is a prefix one character shorter, or `""` for `""` |
| `Paths.LastIndexOf` | src/FileExplorer.php:171 | `strrpos`: the result is -1 or an index holding the character, and no later index holds it |
| `Paths.LastIndexOfAppend` | src/FileExplorer.php:171 | when `a` ends in the character and `b` does not contain it, the last occurrence in `a + b` is the end of `a` |
| `Paths.CleanupDropsOneSlash` | src/FileExplorer.php:178 | cutting the final slash off a normalized directory and cleaning the rest gives the directory back |
| `Paths.CleanupBeforeSlash` | src/FileExplorer.php:168-178 | cleaning the part of a backslash-free path before one of its slashes gives a prefix of the path that ends at or before that slash |
| `FileExplorer.Create` | src/FileExplorer.php:31-43 | a relative cleaned start fails because the pointer is read before it is set; an absolute one succeeds exactly when it is a directory, and otherwise fails with not-found for the cleaned path; on success the pointer is the cleaned start, normalized, and the filesystem is untouched |
| `FileExplorer.Resolve` | src/FileExplorer.php:53-55 | an absolute path is kept; a relative one lands below the right-trimmed pointer and ends in `/` |
| `FileExplorer.ResolveRelative` | src/FileExplorer.php:110-112 | against a normalized pointer, a relative path resolves to the pointer, the path trimmed of separators, and `/` |
| `FileExplorer.Exists` | src/FileExplorer.php:108-115 | an absolute path exists when it names a directory, or a file and it has no trailing slash; against a normalized pointer, a relative path exists exactly when the pointer plus the trimmed path plus `/` is a directory |
| `FileExplorer.ExistsRelativeFindsOnlyDirectories` | src/FileExplorer.php:108-115 | a plain relative name exists exactly when it is a directory below the pointer; a file of that name is reported missing |
| `FileExplorer.ChildDir` | src/FileExplorer.php:53-58 | a plain relative name resolves, and cleans for mkdir, to the pointer, the name and `/` |
| `FileExplorer.DirChain` | src/FileExplorer.php:57-59 | the directories a recursive mkdir walks through are exactly the prefixes of the path that end in `/`, the path itself included |
| `FileExplorer.Mkdir` | src/FileExplorer.php:57-59 | an existing directory changes nothing; it fails exactly when the directory does not exist and it or an ancestor is a file; on success the directory exists, every ancestor is a directory when it had to be created, no existing entry changes, and only keys of the directory and its ancestors are added |
| `FileExplorer.DirectoryTarget` | src/FileExplorer.php:53-58 | the path handed to mkdir is normalized; an absolute argument is cleaned and kept, and against a normalized pointer a relative one becomes the cleaned pointer + trimmed path + `/` |
| `FileExplorer.CreateDirectory` | src/FileExplorer.php:51-60 | the pointer never moves; it fails with an I/O error naming the cleaned target exactly when the target is not a directory and a file is in its way; an existing target changes nothing; on success the target and all its ancestors are directories and every existing entry keeps its value; nothing else is created (`CreateDirectoryAddsOnlyChain`) |
| `FileExplorer.CreateDirectoryAddsOnlyChain` | src/FileExplorer.php:57-59 | every key present after `createDirectory` was present before, or is the target or one of its ancestors and holds a directory |
| `FileExplorer.FileTarget` | src/FileExplorer.php:69-71 | an absolute filename is kept; a relative one is the pointer followed by exactly the filename, with no separator handling |
| `FileExplorer.CreateFile` | src/FileExplorer.php:67-78 | the pointer never moves; it fails exactly when `overwrite` is off and `exists` reports the target, and then names the target; a target that cannot be written (a directory, or a missing parent) leaves the state unchanged; otherwise the target is found as a file holding exactly `contents` and no other entry changes |
| `FileExplorer.EnterTarget` | src/FileExplorer.php:89-93 | the target always ends in `/`; an absolute cleaned argument is the target; against a normalized pointer a relative one gives the pointer, the cleaned argument trimmed of separators, and `/` |
| `FileExplorer.EnterDirectory` | src/FileExplorer.php:87-100 | it succeeds exactly when the resolved target exists; the new pointer is that target and the filesystem is untouched; failure is not-found naming the target |
| `FileExplorer.ParentCandidate` | src/FileExplorer.php:168-172 | the candidate parent of `goUp` is `""` exactly when the pointer has no slash between its first and its last character; otherwise it is the prefix before the last such slash |
| `FileExplorer.GoUp` | src/FileExplorer.php:166-179 | it fails with the root-boundary error exactly when the candidate parent is `""` or `"0"`; otherwise the pointer becomes the cleaned candidate and the filesystem is untouched |
| `FileExplorer.EnterKeepsPointerNormalized` | src/FileExplorer.php:87-100 | if `/` counts as absolute and the pointer has no backslash, a successful `enterDirectory` leaves a pointer with no backslash and exactly one trailing `/` |
| `FileExplorer.PointerInvariant` | src/FileExplorer.php:42 | if `/` counts as absolute, then starting from a normalized pointer, `createDirectory` and `createFile` leave the pointer unchanged, and `enterDirectory` and `goUp` keep it normalized |
| `FileExplorer.EnterPlainName` | src/FileExplorer.php:89-93 | a relative name without separators resolves to the pointer, the name and one `/` |
| `FileExplorer.EnterParentNotCollapsed` | src/FileExplorer.php:89-93 | entering `..` makes the pointer the old pointer plus the literal segment `../`; nothing is collapsed |
| `FileExplorer.EnterSucceedsIffExists` | src/FileExplorer.php:95-99 | for an absolute resolved target, entering succeeds exactly when the target is a directory, and otherwise fails with not-found naming it |
| `FileExplorer.GoUpFromRoot` | src/FileExplorer.php:166-179 | going up from `/` fails with the root-boundary error |
| `FileExplorer.GoUpFromTopLevel` | src/FileExplorer.php:166-179 | going up from `/name/` also fails with the root-boundary error |
| `FileExplorer.GoUpDropsLastSegment` | src/FileExplorer.php:166-179 | from `parent + name + "/"`, with `parent` normalized and neither `/` nor `0/`, going up yields exactly `parent` |
| `FileExplorer.GoUpToAncestor` | src/FileExplorer.php:168-178 | a successful `goUp` moves to a strict prefix of a backslash-free pointer |
| `FileExplorer.EnterThenGoUp` | src/FileExplorer.php:87-100 | entering a plain child name successfully and then going up restores the original state |
| `FileExplorer.EnterPlainChild` | src/FileExplorer.php:87-100 | entering a plain child name that is a directory moves the pointer to the pointer, the name and `/` |
| `FileExplorer.CreateDirectoryThenExists` | src/FileExplorer.php:51-60 | after creating a directory under a plain relative name, `exists` reports that name as present |
| `FileExplorer.CreateEnterGoUpScenario` | src/FileExplorer.php:51-100 | create a child directory, enter it (the pointer becomes start + child + `/`), go up (the pointer is the start again) |
| `FileExplorer.CreateFileTwice` | src/FileExplorer.php:67-78 | once a writable file has been written, writing it again without `overwrite` fails with already-exists for the target; with `overwrite` the contents become exactly the new ones |
| `FileExplorer.ParentKeyDiffers` | src/FileExplorer.php:77 | the directory part of a write target is a different object from the target, so writing the file leaves its parent in place |
| `FileExplorer.FileBlocksDirectory` | src/FileExplorer.php:57-59 | after writing the file `name`, creating the directory `name` fails with an I/O error for `name/` |
| `FileExplorer.FileWritten` | src/FileExplorer.php:69-77 | a successful write of a plain relative name leaves a file at pointer + name and does not move the pointer |
| `FileExplorer.MkdirBlockedByFile` | src/FileExplorer.php:53-59 | when a file sits at pointer + name, creating the directory `name` fails with an I/O error for pointer + name + `/` |
| `FileExplorer.DirectoryBlocksFile` | src/FileExplorer.php:73-77 | after creating the directory `name`, writing the file `name` fails with already-exists, and with `overwrite` changes nothing |
| `Listing.EntryOf` | src/FileExplorer.php:141-153 | a kept item becomes an entry with the same name and path, tagged Directory exactly when the item is a directory |
| `Listing.Classify` | src/FileExplorer.php:137-153 | one item yields at most one entry, exactly when it is kept, with its name and path, tagged Directory exactly for a directory |
| `Listing.Collect` | src/FileExplorer.php:134-154 | the loop yields at most one entry per raw item |
| `Listing.ClassifyOne` | src/FileExplorer.php:137-153 | one item yields its entry when kept, and nothing when it is a dot entry or neither a file nor a directory |
| `Listing.CollectConcat` | src/FileExplorer.php:136-154 | collecting a concatenation of listings gives the concatenation of the collections |
| `Listing.CollectMembership` | src/FileExplorer.php:136-154 | an entry is collected exactly when some kept raw item yields it |
| `Listing.CollectAllKept` | src/FileExplorer.php:136-154 | when every item is kept, the collection has one entry per item, in iteration order |
| `Listing.CollectNoneKept` | src/FileExplorer.php:137-153 | dot entries and items that are neither file nor directory yield nothing |
| `Listing.NameLeReflexive` | src/FileExplorer.php:235 | every name is ordered before or equal to itself |
| `Listing.NameLeTotal` | src/FileExplorer.php:235 | any two names are comparable |
| `Listing.NameLeTransitive` | src/FileExplorer.php:235 | the name order is transitive |
| `Listing.NameLeAntisymmetric` | src/FileExplorer.php:235 | two names ordered both ways are equal |
| `Listing.NameLeFirstDifference` | src/FileExplorer.php:235 | names that agree up to an index and differ there are strictly ordered by the characters at that index |
| `Listing.LowerBoundKept` | src/FileExplorer.php:232-239 | a name below every element of a sequence and below one more element is below every element of any rearrangement of them |
| `Listing.Insert` | src/FileExplorer.php:232-239 | inserting into a sorted sequence keeps it sorted and adds exactly the one element |
| `Listing.SortByName` | src/FileExplorer.php:232-239 | the result is sorted by name and is a permutation of the input |
| `Listing.SortTwo` | src/FileExplorer.php:234-236 | two entries in descending name order come out swapped |
| `Listing.GetDirectoryContents` | src/FileExplorer.php:132-159 | the result is sorted by name and is a permutation of the collected entries |
| `Listing.ListingMembership` | src/FileExplorer.php:132-159 | the listing contains an entry exactly when a kept raw item yields it, with that item's name, path and tag |
| `Listing.ListingFileAndDirectory` | src/FileExplorer.php:132-159 | a directory with file `a.txt`, subdirectory `b` and the dot entries lists as File `a.txt`, then Directory `b` |
| `Listing.ListingSourceDirectory` | tests/FileExplorerTest.php:167-179 | the repository's `src` directory lists as File `FileExplorer.php`, then Directory `FileObject` |

## Left out

- Symfony `Filesystem` (`mkdir`, `exists`, `isAbsolutePath`), `file_put_contents` and `DirectoryIterator` are foreign I/O. The filesystem is an abstract map. The absolute-path test is a parameter. The raw listing is an input sequence.
- The filesystem map keys an object by its path without trailing slashes. The rest of the operating system's path handling is not modelled: duplicate separators inside a path, `.` and `..` segments, and symlinks all give different keys.
- The filesystem map is not required to be a tree. A lookup checks the key of the path only, not that every ancestor is a directory, except for the parent of a file being written.
- The `getcwd()` default of the constructor reads process state. The start directory is always passed explicitly.
- `createAndEnterDirectory` is called by the test suite but is not defined in the class, so it is not modelled. `CreateEnterGoUpScenario` composes `createDirectory` and `enterDirectory` instead.
- `getCurrentDirectory` and `isAbsolutePath` only return the pointer or delegate to Symfony. The pointer is the `pointer` field, and the absolute-path test is the `isAbsolute` parameter.
- Permission errors and full disks are not modelled for `file_put_contents`. Only a target that is a directory, ends in a slash, or has no parent directory makes the write fail silently. A write target without any slash is relative to the process's working directory, which is taken to exist.
- An empty write target makes PHP 8 throw instead of warn. It arises only from an empty pointer, which no reachable state has, and the model treats it as a failed write.
- Permission errors of the recursive mkdir are not modelled. Only a file in the way makes it fail.
- The FileObject data-transfer classes (`src/FileObject/FileObject.php`, `src/FileObject/FileObjectCollection.php`) wrap library classes. They are replaced by the `Entry` datatype and a plain sequence.
- `getDirectoryContents` throws when `DirectoryIterator` cannot open the pointer (src/FileExplorer.php:136). The listing takes the raw items as input, so it has no failure path.
- `createFile` passes `$contents` untyped to `file_put_contents`, which also accepts arrays and streams. The model narrows the contents to a string.
- Exception classes and message texts are replaced by error kinds that carry the offending path.
- PHP's `<` compares numeric-looking strings as numbers. The model compares names lexicographically by code point. This matches byte order for UTF-8 names.
- Listing.SortByName: it does not model `usort` with the source's comparator. That comparator never reports equality, so the order among equal names is unspecified. The model uses a stable insertion sort, and only sortedness and permutation are claimed as the source's promise.

=== FILE: explorer.dfy ===
/** The `FileExplorer` navigator (src/FileExplorer.php): a current-directory
    pointer over an abstract filesystem. Every operation is a pure transition
    that returns either the next state or an error; an error carries no
    state, so a failed operation leaves pointer and filesystem as they were.

    The platform's absolute-path test is foreign code and is passed in as the
    uninterpreted function `isAbsolute`. The filesystem stores each object
    once, under its `Key`: the path without trailing slashes. As on POSIX, a
    path with a trailing slash names only a directory. */
module FileExplorer {
  import opened Paths

  /** What the filesystem holds at one path. */
  datatype Node = FileNode(contents: string) | DirNode

  /** Objects by `Key`; the root is stored under "/". */
  type FileSystem = map<string, Node>

  /** The navigator's state (`$pointer`) together with the filesystem it
      browses. */
  datatype Explorer = Explorer(pointer: string, fs: FileSystem)

  /** The exceptions the navigator raises, as error kinds. */
  datatype Error =
    | NotFound(path: string)        // FileNotFoundException "... does not exist!"
    | AlreadyExists(path: string)   // Exception "... already exists ..."
    | RootBoundary                  // FileNotFoundException "Cannot go up beyond the root directory!"
    | IOError(path: string)         // IOException from the recursive mkdir
    | PointerUninitialised          // PHP Error: `$pointer` read before it is assigned

  datatype Result<T> = Ok(value: T) | Err(error: Error)

  // ---------------------------------------------------------------------
  // Looking paths up

  /** The key of the object a path names: the path without its trailing
      slashes, except that a path made of slashes only names the root "/". */
  function Key(p: string): string {
    var k := RTrim(p, ForwardSlash);
    if k == "" then "/" else k
  }

  /** A path naming a directory of the filesystem. */
  predicate HoldsDir(fs: FileSystem, p: string) {
    Key(p) in fs && fs[Key(p)].DirNode?
  }

  /** A path whose key holds a file (with or without a trailing slash). */
  predicate HoldsFile(fs: FileSystem, p: string) {
    Key(p) in fs && fs[Key(p)].FileNode?
  }

  /** Symfony's `exists` (`file_exists`): a directory under any of its
      spellings, a file only under a path without a trailing slash; the
      empty path names nothing. */
  predicate Found(fs: FileSystem, p: string) {
    |p| > 0 && (HoldsDir(fs, p) || (HoldsFile(fs, p) && p[|p| - 1] != '/'))
  }

  /** The resolution `exists` and `createDirectory` apply: an absolute path is
      taken as is, a relative one is joined onto the pointer. */
  function Resolve(pointer: string, isAbsolute: string -> bool, path: string): (r: string)
    ensures isAbsolute(path) ==> r == path
    ensures !isAbsolute(path) ==> RTrim(pointer, Separators) + "/" <= r && r[|r| - 1] == '/'
  {
    if isAbsolute(path) then path else JoinPaths([pointer, path])
  }

  /** Resolving a relative path against a normalized pointer appends the
      path, trimmed of separators on both ends, and one slash. */
  lemma ResolveRelative(pointer: string, isAbsolute: string -> bool, path: string)
    requires NormalizedDir(pointer) && !isAbsolute(path)
    ensures Resolve(pointer, isAbsolute, path) == pointer + Trim(path, Separators) + "/"
  {
    JoinOntoNormalized(pointer, path);
  }

  /** `exists` (src/FileExplorer.php:108-115): resolve, then ask the
      filesystem. A relative argument is joined with a trailing slash, so it
      can only find a directory. */
  function Exists(e: Explorer, isAbsolute: string -> bool, path: string): (b: bool)
    ensures isAbsolute(path) ==> (b <==> Found(e.fs, path))
    ensures NormalizedDir(e.pointer) && !isAbsolute(path) ==>
              (b <==> HoldsDir(e.fs, e.pointer + Trim(path, Separators) + "/"))
  {
    assert NormalizedDir(e.pointer) && !isAbsolute(path) ==>
             Resolve(e.pointer, isAbsolute, path) == e.pointer + Trim(path, Separators) + "/" by {
      if NormalizedDir(e.pointer) && !isAbsolute(path) {
        ResolveRelative(e.pointer, isAbsolute, path);
      }
    }
    Found(e.fs, Resolve(e.pointer, isAbsolute, path))
  }

  /** The constructor (src/FileExplorer.php:31-43), with the start directory
      given explicitly. Its existence check runs before `$pointer` is set, so
      a relative start directory makes that check read the unset pointer. */
  function Create(fs: FileSystem, isAbsolute: string -> bool, startDirectory: string): (r: Result<Explorer>)
    ensures r.Ok? ==> NormalizedDir(r.value.pointer) && HoldsDir(fs, r.value.pointer) && r.value.fs == fs
    ensures r.Ok? ==> r.value.pointer == CleanupDirectorySlashes(startDirectory)
    ensures !isAbsolute(CleanupDirectorySlashes(startDirectory)) ==> r == Err(PointerUninitialised)
    ensures isAbsolute(CleanupDirectorySlashes(startDirectory)) ==>
              (r.Ok? <==> HoldsDir(fs, CleanupDirectorySlashes(startDirectory)))
    ensures isAbsolute(CleanupDirectorySlashes(startDirectory)) && !HoldsDir(fs, CleanupDirectorySlashes(startDirectory)) ==>
              r == Err(NotFound(CleanupDirectorySlashes(startDirectory)))
  {
    var directory := CleanupDirectorySlashes(startDirectory);
    if !isAbsolute(directory) then Err(PointerUninitialised)
    else if !Found(fs, directory) then Err(NotFound(directory))
    else Ok(Explorer(directory, fs))
  }

  // ---------------------------------------------------------------------
  // Creating directories and files

  /** The directory `d` and every ancestor a recursive mkdir walks through:
      the prefixes of `d` that end in a slash. */
  function DirChain(d: string): (c: set<string>)
    ensures forall k :: k in c ==> k <= d && |k| > 0 && k[|k| - 1] == '/'
    ensures forall i :: 0 < i <= |d| && d[i - 1] == '/' ==> d[..i] in c
    ensures |d| > 0 && d[|d| - 1] == '/' ==> d in c
  {
    var c := set i | 0 < i <= |d| && d[i - 1] == '/' :: d[..i];
    assert |d| > 0 && d[|d| - 1] == '/' ==> d in c by {
      if |d| > 0 && d[|d| - 1] == '/' {
        assert d[..|d|] == d;
      }
    }
    c
  }

  /** The keys of the directories in `DirChain(d)`. */
  function ChainKeys(d: string): set<string> {
    set c | c in DirChain(d) :: Key(c)
  }

  /** Some directory on the way to `d`, `d` included, is a file. */
  predicate FileInTheWay(fs: FileSystem, d: string) {
    exists c :: c in DirChain(d) && HoldsFile(fs, c)
  }

  /** `d` and every one of its ancestors are directories. */
  predicate DirsAllTheWay(fs: FileSystem, d: string) {
    forall c :: c in DirChain(d) ==> HoldsDir(fs, c)
  }

  /** Symfony's recursive mkdir: nothing to do for an existing directory; it
      fails when the directory or one of its ancestors is a file; otherwise
      the directory and all its missing ancestors become directories. */
  function Mkdir(fs: FileSystem, d: string): (r: Result<FileSystem>)
    requires |d| > 0 && d[|d| - 1] == '/'
    ensures r.Err? <==> !HoldsDir(fs, d) && FileInTheWay(fs, d)
    ensures r.Err? ==> r.error == IOError(d)
    ensures HoldsDir(fs, d) ==> r == Ok(fs)
    ensures r.Ok? ==> HoldsDir(r.value, d)
    ensures r.Ok? && !HoldsDir(fs, d) ==> DirsAllTheWay(r.value, d)
    ensures r.Ok? ==> forall k :: k in fs ==> k in r.value && r.value[k] == fs[k]
    ensures r.Ok? ==> forall k :: k in r.value ==> k in fs || (k in ChainKeys(d) && r.value[k] == DirNode)
  {
    if HoldsDir(fs, d) then Ok(fs)
    else if FileInTheWay(fs, d) then Err(IOError(d))
    else
      var fs' := map k | k in fs.Keys + ChainKeys(d) :: if k in fs then fs[k] else DirNode;
      assert DirsAllTheWay(fs', d) by {
        forall c | c in DirChain(d)
          ensures HoldsDir(fs', c)
        {
          assert Key(c) in ChainKeys(d);
          assert !HoldsFile(fs, c);
        }
      }
      Ok(fs')
  }

  /** The path `createDirectory` hands to mkdir. */
  function DirectoryTarget(e: Explorer, isAbsolute: string -> bool, directory: string): (t: string)
    ensures NormalizedDir(t)
    ensures isAbsolute(directory) ==> t == CleanupDirectorySlashes(directory)
    ensures NormalizedDir(e.pointer) && !isAbsolute(directory) ==>
              t == CleanupDirectorySlashes(e.pointer + Trim(directory, Separators) + "/")
  {
    assert NormalizedDir(e.pointer) && !isAbsolute(directory) ==>
             Resolve(e.pointer, isAbsolute, directory) == e.pointer + Trim(directory, Separators) + "/" by {
      if NormalizedDir(e.pointer) && !isAbsolute(directory) {
        ResolveRelative(e.pointer, isAbsolute, directory);
      }
    }
    CleanupDirectorySlashes(Resolve(e.pointer, isAbsolute, directory))
  }

  /** `createDirectory` (src/FileExplorer.php:51-60): a recursive mkdir of the
      resolved, cleaned path; the pointer never moves and no existing entry
      changes. */
  function CreateDirectory(e: Explorer, isAbsolute: string -> bool, directory: string): (r: Result<Explorer>)
    ensures r.Ok? ==> r.value.pointer == e.pointer
    ensures r.Ok? ==> HoldsDir(r.value.fs, DirectoryTarget(e, isAbsolute, directory))
    ensures r.Ok? && !HoldsDir(e.fs, DirectoryTarget(e, isAbsolute, directory)) ==>
              DirsAllTheWay(r.value.fs, DirectoryTarget(e, isAbsolute, directory))
    ensures r.Ok? ==> forall k :: k in e.fs ==> k in r.value.fs && r.value.fs[k] == e.fs[k]
    ensures r.Err? <==> !HoldsDir(e.fs, DirectoryTarget(e, isAbsolute, directory))
                        && FileInTheWay(e.fs, DirectoryTarget(e, isAbsolute, directory))
    ensures r.Err? ==> r.error == IOError(DirectoryTarget(e, isAbsolute, directory))
    ensures HoldsDir(e.fs, DirectoryTarget(e, isAbsolute, directory)) ==> r == Ok(e)
  {
    match Mkdir(e.fs, DirectoryTarget(e, isAbsolute, directory))
    case Ok(fs') => Ok(e.(fs := fs'))
    case Err(err) => Err(err)
  }

  /** `createDirectory` adds nothing but the target and its ancestors, and
      what it adds is a directory. */
  lemma CreateDirectoryAddsOnlyChain(e: Explorer, isAbsolute: string -> bool, directory: string)
    ensures var r := CreateDirectory(e, isAbsolute, directory);
            r.Ok? ==> forall k :: k in r.value.fs ==>
              k in e.fs || (k in ChainKeys(DirectoryTarget(e, isAbsolute, directory)) && r.value.fs[k] == DirNode)
  {
  }

  /** The path `createFile` writes: a relative name is appended to the
      pointer by plain concatenation, not by `joinPaths`. */
  function FileTarget(e: Explorer, isAbsolute: string -> bool, filename: string): (t: string)
    ensures isAbsolute(filename) ==> t == filename
    ensures !isAbsolute(filename) ==> e.pointer <= t && t[|e.pointer|..] == filename
  {
    if isAbsolute(filename) then filename else e.pointer + filename
  }

  /** Whether `file_put_contents` can write `t`: a non-empty path without a
      trailing slash that is not a directory, whose parent (the part up to
      its last slash, when it has one) is a directory. */
  predicate Writable(fs: FileSystem, t: string) {
    && |t| > 0 && t[|t| - 1] != '/'
    && !HoldsDir(fs, t)
    && (LastIndexOf(t, '/') < 0 || HoldsDir(fs, t[..LastIndexOf(t, '/') + 1]))
  }

  /** `createFile` (src/FileExplorer.php:67-78). Without `overwrite` an
      existing target is an error and nothing is written. A write that
      `file_put_contents` cannot do (onto a directory, into a missing
      directory) fails with a warning only, so it reports success and
      changes nothing. */
  function CreateFile(e: Explorer, isAbsolute: string -> bool, filename: string, contents: string,
                      overwrite: bool): (r: Result<Explorer>)
    ensures r.Ok? ==> r.value.pointer == e.pointer
    ensures r.Err? <==> !overwrite && Exists(e, isAbsolute, FileTarget(e, isAbsolute, filename))
    ensures r.Err? ==> r.error == AlreadyExists(FileTarget(e, isAbsolute, filename))
    ensures r.Ok? && !Writable(e.fs, FileTarget(e, isAbsolute, filename)) ==> r.value == e
    ensures r.Ok? && Writable(e.fs, FileTarget(e, isAbsolute, filename)) ==>
              var t := FileTarget(e, isAbsolute, filename);
              && Found(r.value.fs, t) && r.value.fs[Key(t)] == FileNode(contents)
              && r.value.fs.Keys == e.fs.Keys + {Key(t)}
              && (forall k :: k in e.fs && k != Key(t) ==> r.value.fs[k] == e.fs[k])
  {
    var filename := FileTarget(e, isAbsolute, filename);
    if !overwrite && Exists(e, isAbsolute, filename) then Err(AlreadyExists(filename))
    else if !Writable(e.fs, filename) then Ok(e)
    else Ok(e.(fs := e.fs[Key(filename) := FileNode(contents)]))
  }

  // ---------------------------------------------------------------------
  // Moving the pointer

  /** The path `enterDirectory` moves to: the cleaned argument, joined onto
      the pointer when relative. */
  function EnterTarget(e: Explorer, isAbsolute: string -> bool, directory: string): (t: string)
    ensures |t| > 0 && t[|t| - 1] == '/'
    ensures isAbsolute(CleanupDirectorySlashes(directory)) ==> t == CleanupDirectorySlashes(directory)
    ensures NormalizedDir(e.pointer) && !isAbsolute(CleanupDirectorySlashes(directory)) ==>
              t == e.pointer + Trim(CleanupDirectorySlashes(directory), Separators) + "/"
  {
    var d := CleanupDirectorySlashes(directory);
    if isAbsolute(d) then d
    else
      assert NormalizedDir(e.pointer) ==> Resolve(e.pointer, isAbsolute, d) == e.pointer + Trim(d, Separators) + "/" by {
        if NormalizedDir(e.pointer) {
          ResolveRelative(e.pointer, isAbsolute, d);
        }
      }
      Resolve(e.pointer, isAbsolute, d)
  }

  /** `enterDirectory` (src/FileExplorer.php:87-100). The existence check is
      `exists`, which resolves its argument once more. */
  function EnterDirectory(e: Explorer, isAbsolute: string -> bool, directory: string): (r: Result<Explorer>)
    ensures r.Ok? ==> r.value.fs == e.fs
    ensures r.Ok? ==> r.value.pointer == EnterTarget(e, isAbsolute, directory)
    ensures r.Err? ==> r.error == NotFound(EnterTarget(e, isAbsolute, directory))
    ensures r.Ok? <==> Exists(e, isAbsolute, EnterTarget(e, isAbsolute, directory))
  {
    var target := EnterTarget(e, isAbsolute, directory);
    if !Exists(e, isAbsolute, target) then Err(NotFound(target)) else Ok(e.(pointer := target))
  }

  /** The candidate parent of `goUp`: the pointer cut at the last slash
      before its final character (`substr`/`strrpos`); "" when that slash is
      at index 0 or there is none, as `substr(p, 0, false)` gives. */
  function ParentCandidate(pointer: string): (d: string)
    ensures d <= pointer
    ensures d == "" <==> forall j :: 0 < j < |pointer| - 1 ==> pointer[j] != '/'
    ensures d != "" ==> && |d| < |pointer| - 1 && pointer[|d|] == '/'
                        && forall j :: |d| < j < |pointer| - 1 ==> pointer[j] != '/'
  {
    var i := LastIndexOf(DropLast(pointer), '/');
    assert forall j :: 0 <= j < |pointer| - 1 ==> DropLast(pointer)[j] == pointer[j];
    if i < 0 then "" else pointer[..i]
  }

  /** `goUp` (src/FileExplorer.php:166-179). PHP's `!$directory` holds for
      "" and also for "0"; both raise the root-boundary error. */
  function GoUp(e: Explorer): (r: Result<Explorer>)
    ensures r.Err? <==> ParentCandidate(e.pointer) in {"", "0"}
    ensures r.Err? ==> r.error == RootBoundary
    ensures r.Ok? ==> r.value == e.(pointer := CleanupDirectorySlashes(ParentCandidate(e.pointer)))
    ensures r.Ok? ==> r.value.fs == e.fs && NormalizedDir(r.value.pointer)
  {
    var directory := ParentCandidate(e.pointer);
    if directory == "" || directory == "0" then Err(RootBoundary)
    else Ok(e.(pointer := CleanupDirectorySlashes(directory)))
  }

  // ---------------------------------------------------------------------
  // The pointer invariant

  /** With "/" counted as absolute, entering a directory keeps the pointer
      free of backslashes and ending in exactly one slash. */
  lemma EnterKeepsPointerNormalized(e: Explorer, isAbsolute: string -> bool, directory: string)
    requires '\\' !in e.pointer
    requires isAbsolute("/")
    ensures EnterDirectory(e, isAbsolute, directory).Ok? ==>
              NormalizedDir(EnterDirectory(e, isAbsolute, directory).value.pointer)
  {
    var d := CleanupDirectorySlashes(directory);
    if !isAbsolute(d) {
      TrimNormalized(d);
      var name := Trim(d, Separators);
      JoinTwo(e.pointer, d);
      var front := RTrim(e.pointer, Separators);
      var t := front + "/" + name + "/";
      assert EnterTarget(e, isAbsolute, directory) == t;
      assert NormalizedDir(t) by {
        assert t[|t| - 2] == name[|name| - 1];
        assert '\\' !in front;
        assert '\\' !in t;
      }
    }
  }

  /** Every operation other than the three pointer transitions leaves the
      pointer where it was; the transitions keep it normalized. */
  lemma PointerInvariant(e: Explorer, isAbsolute: string -> bool, path: string, contents: string,
                         overwrite: bool)
    requires NormalizedDir(e.pointer)
    requires isAbsolute("/")
    ensures CreateDirectory(e, isAbsolute, path).Ok? ==> CreateDirectory(e, isAbsolute, path).value.pointer == e.pointer
    ensures CreateFile(e, isAbsolute, path, contents, overwrite).Ok? ==>
              CreateFile(e, isAbsolute, path, contents, overwrite).value.pointer == e.pointer
    ensures EnterDirectory(e, isAbsolute, path).Ok? ==> NormalizedDir(EnterDirectory(e, isAbsolute, path).value.pointer)
    ensures GoUp(e).Ok? ==> NormalizedDir(GoUp(e).value.pointer)
  {
    EnterKeepsPointerNormalized(e, isAbsolute, path);
  }

  // ---------------------------------------------------------------------
  // Entering directories

  /** A relative name without separators is entered as the pointer followed
      by the name and one slash. */
  lemma EnterPlainName(e: Explorer, isAbsolute: string -> bool, name: string)
    requires NormalizedDir(e.pointer)
    requires |name| > 0 && forall i :: 0 <= i < |name| ==> name[i] !in Separators
    requires !isAbsolute(name + "/")
    ensures EnterTarget(e, isAbsolute, name) == e.pointer + name + "/"
  {
    CleanupPlainName(name);
    TrimPlainName(name);
  }

  /** ".." is not collapsed: it becomes a literal segment of the pointer. */
  lemma EnterParentNotCollapsed(e: Explorer, isAbsolute: string -> bool)
    requires NormalizedDir(e.pointer)
    requires !isAbsolute("../")
    ensures EnterTarget(e, isAbsolute, "..") == e.pointer + "../"
  {
    assert forall i :: 0 <= i < |".."| ==> ".."[i] !in Separators;
    assert ".." + "/" == "../";
    EnterPlainName(e, isAbsolute, "..");
  }

  /** When the resolved target is absolute, entering succeeds exactly when
      the target is a directory; on failure the error names the target. */
  lemma EnterSucceedsIffExists(e: Explorer, isAbsolute: string -> bool, directory: string)
    requires isAbsolute(EnterTarget(e, isAbsolute, directory))
    ensures EnterDirectory(e, isAbsolute, directory).Ok? <==> HoldsDir(e.fs, EnterTarget(e, isAbsolute, directory))
    ensures !HoldsDir(e.fs, EnterTarget(e, isAbsolute, directory)) ==>
              EnterDirectory(e, isAbsolute, directory) == Err(NotFound(EnterTarget(e, isAbsolute, directory)))
  {
  }

  // ---------------------------------------------------------------------
  // Going up

  /** Going up from the root fails. */
  lemma GoUpFromRoot(e: Explorer)
    requires e.pointer == "/"
    ensures GoUp(e) == Err(RootBoundary)
  {
  }

  /** Going up from a directory one level below the root fails as well: the
      only slash left before the last one sits at index 0. */
  lemma GoUpFromTopLevel(e: Explorer, name: string)
    requires forall i :: 0 <= i < |name| ==> name[i] != '/'
    requires e.pointer == "/" + name + "/"
    ensures GoUp(e) == Err(RootBoundary)
  {
    assert DropLast(e.pointer) == "/" + name;
    LastIndexOfAppend("/", name, '/');
  }

  /** Below the first level, going up drops exactly the last segment. */
  lemma GoUpDropsLastSegment(e: Explorer, parent: string, name: string)
    requires NormalizedDir(parent) && parent != "/" && parent != "0/"
    requires |name| > 0 && forall i :: 0 <= i < |name| ==> name[i] != '/'
    requires e.pointer == parent + name + "/"
    ensures GoUp(e) == Ok(e.(pointer := parent))
  {
    var p := e.pointer;
    assert DropLast(p) == parent + name;
    LastIndexOfAppend(parent, name, '/');
    var body := parent[..|parent| - 1];
    assert p[..|parent| - 1] == body;
    assert ParentCandidate(p) == body;
    assert parent == body + "/";
    CleanupDropsOneSlash(parent);
  }

  /** A successful `goUp` moves to a proper prefix of the pointer that ends
      in a slash of the old pointer: an ancestor, never a sibling. */
  lemma GoUpToAncestor(e: Explorer)
    requires '\\' !in e.pointer
    requires GoUp(e).Ok?
    ensures GoUp(e).value.pointer < e.pointer
  {
    var p := e.pointer;
    var i := LastIndexOf(DropLast(p), '/');
    assert i >= 0 && p[i] == '/';
    CleanupBeforeSlash(p, i);
  }

  // ---------------------------------------------------------------------
  // Round trips and scenarios

  /** Entering a plain child directory and going up again restores the
      pointer. */
  lemma EnterThenGoUp(e: Explorer, isAbsolute: string -> bool, child: string)
    requires NormalizedDir(e.pointer) && e.pointer != "/" && e.pointer != "0/"
    requires |child| > 0 && forall i :: 0 <= i < |child| ==> child[i] !in Separators
    requires !isAbsolute(child + "/")
    ensures EnterDirectory(e, isAbsolute, child).Ok? ==> GoUp(EnterDirectory(e, isAbsolute, child).value) == Ok(e)
  {
    EnterPlainName(e, isAbsolute, child);
    var target := e.pointer + child + "/";
    var e1 := e.(pointer := target);
    GoUpDropsLastSegment(e1, e.pointer, child);
    var r := EnterDirectory(e, isAbsolute, child);
    if r.Ok? {
      assert r.value == e1;
    }
  }

  /** A directory created under a plain relative name exists afterwards
      under that same name. */
  lemma CreateDirectoryThenExists(e: Explorer, isAbsolute: string -> bool, name: string)
    requires NormalizedDir(e.pointer)
    requires |name| > 0 && forall i :: 0 <= i < |name| ==> name[i] !in Separators
    requires !isAbsolute(name)
    ensures CreateDirectory(e, isAbsolute, name).Ok? ==> Exists(CreateDirectory(e, isAbsolute, name).value, isAbsolute, name)
  {
    var joined := ChildDir(e, isAbsolute, name);
    var r := CreateDirectory(e, isAbsolute, name);
    if r.Ok? {
      assert HoldsDir(r.value.fs, joined);
      assert r.value.pointer == e.pointer;
      assert Resolve(r.value.pointer, isAbsolute, name) == joined;
      assert joined[|joined| - 1] == '/';
      assert Found(r.value.fs, joined);
    }
  }

  /** A plain relative name, resolved and cleaned, is the pointer followed
      by the name and one slash, for `createDirectory` and `exists` alike. */
  lemma ChildDir(e: Explorer, isAbsolute: string -> bool, name: string) returns (joined: string)
    requires NormalizedDir(e.pointer)
    requires |name| > 0 && forall i :: 0 <= i < |name| ==> name[i] !in Separators
    requires !isAbsolute(name)
    ensures joined == e.pointer + name + "/"
    ensures Resolve(e.pointer, isAbsolute, name) == joined
    ensures DirectoryTarget(e, isAbsolute, name) == joined
  {
    joined := e.pointer + name + "/";
    assert Resolve(e.pointer, isAbsolute, name) == joined by {
      ResolveRelative(e.pointer, isAbsolute, name);
      TrimPlainName(name);
    }
    assert NormalizedDir(joined) by {
      assert joined[|joined| - 2] == name[|name| - 1];
      assert '\\' !in e.pointer + name;
    }
    CleanupFixpoint(joined);
  }

  /** A path that does not end in a slash is its own key, and so is it
      followed by one slash. */
  lemma KeyOfUnslashed(p: string)
    requires |p| > 0 && p[|p| - 1] != '/'
    ensures Key(p) == p
    ensures Key(p + "/") == p
  {
    assert (p + "/")[..|p|] == p;
  }

  /** Entering a plain child name that is a directory moves the pointer one
      level down, to the pointer followed by the name and a slash. */
  lemma EnterPlainChild(e: Explorer, isAbsolute: string -> bool, child: string)
    requires NormalizedDir(e.pointer)
    requires |child| > 0 && forall i :: 0 <= i < |child| ==> child[i] !in Separators
    requires !isAbsolute(child + "/") && isAbsolute(e.pointer + child + "/")
    requires HoldsDir(e.fs, e.pointer + child + "/")
    ensures EnterDirectory(e, isAbsolute, child) == Ok(e.(pointer := e.pointer + child + "/"))
  {
    EnterPlainName(e, isAbsolute, child);
  }

  /** Start somewhere below the top level, create a plain child directory,
      enter it, go up: the pointer is the start plus the child and a slash
      in between, and the start again at the end. */
  lemma CreateEnterGoUpScenario(e: Explorer, isAbsolute: string -> bool, child: string)
    requires NormalizedDir(e.pointer) && e.pointer != "/" && e.pointer != "0/"
    requires |child| > 0 && forall i :: 0 <= i < |child| ==> child[i] !in Separators
    requires !isAbsolute(child) && !isAbsolute(child + "/")
    requires isAbsolute(e.pointer + child + "/")
    ensures CreateDirectory(e, isAbsolute, child).Ok? ==>
            var e1 := CreateDirectory(e, isAbsolute, child).value;
            && EnterDirectory(e1, isAbsolute, child) == Ok(e1.(pointer := e.pointer + child + "/"))
            && GoUp(e1.(pointer := e.pointer + child + "/")) == Ok(e1)
  {
    if CreateDirectory(e, isAbsolute, child).Ok? {
      var e1 := CreateDirectory(e, isAbsolute, child).value;
      var joined := ChildDir(e, isAbsolute, child);
      assert HoldsDir(e1.fs, joined);
      EnterPlainChild(e1, isAbsolute, child);
      GoUpDropsLastSegment(e1.(pointer := joined), e.pointer, child);
    }
  }

  /** `exists` joins a relative argument with `joinPaths`, which ends it in
      a slash, so a plain relative name finds only a directory: a file of
      that name is reported missing. */
  lemma ExistsRelativeFindsOnlyDirectories(e: Explorer, isAbsolute: string -> bool, name: string)
    requires NormalizedDir(e.pointer)
    requires |name| > 0 && forall i :: 0 <= i < |name| ==> name[i] !in Separators
    requires !isAbsolute(name)
    ensures Exists(e, isAbsolute, name) <==> HoldsDir(e.fs, e.pointer + name)
    ensures HoldsFile(e.fs, e.pointer + name) ==> !Exists(e, isAbsolute, name)
  {
    var joined := ChildDir(e, isAbsolute, name);
    KeyOfUnslashed(e.pointer + name);
    assert joined[|joined| - 1] == '/';
    assert Exists(e, isAbsolute, name) == Found(e.fs, joined);
    assert Found(e.fs, joined) == HoldsDir(e.fs, joined);
  }

  /** Creating the same file twice: without `overwrite` the second call
      fails and names the target; with it, the contents become exactly the
      new ones. */
  lemma CreateFileTwice(e: Explorer, isAbsolute: string -> bool, name: string, first: string, second: string)
    requires !isAbsolute(name) && isAbsolute(e.pointer + name)
    requires Writable(e.fs, e.pointer + name)
    ensures CreateFile(e, isAbsolute, name, first, false).Ok? ==>
            var e1 := CreateFile(e, isAbsolute, name, first, false).value;
            && CreateFile(e1, isAbsolute, name, second, false) == Err(AlreadyExists(e.pointer + name))
            && CreateFile(e1, isAbsolute, name, second, true).Ok?
            && CreateFile(e1, isAbsolute, name, second, true).value.fs[e.pointer + name] == FileNode(second)
  {
    var t := e.pointer + name;
    KeyOfUnslashed(t);
    if CreateFile(e, isAbsolute, name, first, false).Ok? {
      var e1 := CreateFile(e, isAbsolute, name, first, false).value;
      assert e1.fs == e.fs[t := FileNode(first)];
      if LastIndexOf(t, '/') >= 0 {
        ParentKeyDiffers(t, LastIndexOf(t, '/'));
      }
      assert Writable(e1.fs, t);
    }
  }

  /** The part of a path up to one of its slashes has another key than the
      path itself, when that does not end in a slash. */
  lemma ParentKeyDiffers(t: string, i: int)
    requires |t| > 0 && t[|t| - 1] != '/'
    requires 0 <= i < |t| && t[i] == '/'
    ensures Key(t[..i + 1]) != Key(t)
  {
    var parent := t[..i + 1];
    KeyOfSlashEnded(parent);
    KeyOfUnslashed(t);
  }

  /** A path ending in a slash has a shorter key, or is the root. */
  lemma KeyOfSlashEnded(q: string)
    requires |q| > 0 && q[|q| - 1] == '/'
    ensures Key(q) == "/" || |Key(q)| < |q|
  {
    var k := RTrim(q, ForwardSlash);
    assert k == [] || k[|k| - 1] != '/';
  }

  /** A file stands in the way of a directory of the same name: after
      writing `name`, creating the directory `name` fails, as mkdir of
      `name/` does when `name` is a file. */
  lemma FileBlocksDirectory(e: Explorer, isAbsolute: string -> bool, name: string, contents: string)
    requires NormalizedDir(e.pointer)
    requires |name| > 0 && forall i :: 0 <= i < |name| ==> name[i] !in Separators
    requires !isAbsolute(name) && isAbsolute(e.pointer + name)
    requires Writable(e.fs, e.pointer + name)
    ensures CreateFile(e, isAbsolute, name, contents, false).Ok? ==>
            CreateDirectory(CreateFile(e, isAbsolute, name, contents, false).value, isAbsolute, name)
              == Err(IOError(e.pointer + name + "/"))
  {
    if CreateFile(e, isAbsolute, name, contents, false).Ok? {
      var e1 := CreateFile(e, isAbsolute, name, contents, false).value;
      FileWritten(e, isAbsolute, name, contents);
      MkdirBlockedByFile(e1, isAbsolute, name);
    }
  }

  /** A successful write of a plain relative name leaves a file at the
      pointer followed by the name, and the pointer where it was. */
  lemma FileWritten(e: Explorer, isAbsolute: string -> bool, name: string, contents: string)
    requires NormalizedDir(e.pointer)
    requires |name| > 0 && forall i :: 0 <= i < |name| ==> name[i] !in Separators
    requires !isAbsolute(name)
    requires Writable(e.fs, e.pointer + name)
    ensures CreateFile(e, isAbsolute, name, contents, false).Ok? ==>
              var e1 := CreateFile(e, isAbsolute, name, contents, false).value;
              e1.pointer == e.pointer && HoldsFile(e1.fs, e.pointer + name)
  {
    var t := FileTarget(e, isAbsolute, name);
    assert t == e.pointer + name;
  }

  /** A file under a plain relative name makes creating the directory of
      that name fail with an I/O error on the joined path. */
  lemma MkdirBlockedByFile(e: Explorer, isAbsolute: string -> bool, name: string)
    requires NormalizedDir(e.pointer)
    requires |name| > 0 && forall i :: 0 <= i < |name| ==> name[i] !in Separators
    requires !isAbsolute(name)
    requires HoldsFile(e.fs, e.pointer + name)
    ensures CreateDirectory(e, isAbsolute, name) == Err(IOError(e.pointer + name + "/"))
  {
    var joined := ChildDir(e, isAbsolute, name);
    KeyOfUnslashed(e.pointer + name);
    assert Key(joined) == e.pointer + name;
    assert HoldsFile(e.fs, joined) && !HoldsDir(e.fs, joined);
    assert joined in DirChain(joined);
    assert FileInTheWay(e.fs, joined);
  }

  /** A directory stands in the way of a file of the same name: without
      `overwrite` writing it fails because it exists; with `overwrite` the
      write fails inside `file_put_contents` and nothing changes. */
  lemma DirectoryBlocksFile(e: Explorer, isAbsolute: string -> bool, name: string, contents: string)
    requires NormalizedDir(e.pointer)
    requires |name| > 0 && forall i :: 0 <= i < |name| ==> name[i] !in Separators
    requires !isAbsolute(name) && isAbsolute(e.pointer + name)
    ensures CreateDirectory(e, isAbsolute, name).Ok? ==>
            var e1 := CreateDirectory(e, isAbsolute, name).value;
            && CreateFile(e1, isAbsolute, name, contents, false) == Err(AlreadyExists(e.pointer + name))
            && CreateFile(e1, isAbsolute, name, contents, true) == Ok(e1)
  {
    if CreateDirectory(e, isAbsolute, name).Ok? {
      var e1 := CreateDirectory(e, isAbsolute, name).value;
      var joined := ChildDir(e, isAbsolute, name);
      KeyOfUnslashed(e.pointer + name);
      assert HoldsDir(e1.fs, e.pointer + name);
    }
  }
}

=== FILE: listing.dfy ===
/** `getDirectoryContents` and `sortFileObjects`: the raw items a directory
    iterator reports for the current directory are filtered, tagged as File
    or Directory, and sorted by name. The iterator itself is foreign I/O, so
    its output is an input sequence here. */
module Listing {

  /** What the iterator's `isDir()` / `isFile()` report for one item. */
  datatype Kind = DirKind | FileKind | OtherKind

  /** One item of the raw listing: its `getFilename()`, its `getPath()`
      (an opaque string decided by the iterator) and its kind. */
  datatype RawItem = RawItem(name: string, path: string, kind: Kind)

  /** The typed entry the listing returns. */
  datatype Entry = File(name: string, path: string) | Directory(name: string, path: string)

  /** `isDot()`: the self and parent pseudo-entries. */
  predicate IsDot(item: RawItem) {
    item.name == "." || item.name == ".."
  }

  /** An item that survives the listing: not a dot entry, and a directory or
      a regular file. */
  predicate Kept(item: RawItem) {
    !IsDot(item) && item.kind != OtherKind
  }

  /** The entry a kept item becomes: same name and path, tag from its kind. */
  function EntryOf(item: RawItem): (e: Entry)
    requires item.kind != OtherKind
    ensures e.name == item.name && e.path == item.path
    ensures e.Directory? <==> item.kind == DirKind
  {
    if item.kind == DirKind then Directory(item.name, item.path) else File(item.name, item.path)
  }

  /** The body of the `foreach` (src/FileExplorer.php:137-153) for one item:
      skip dots, then two independent checks for directory and file. */
  function Classify(item: RawItem): (r: seq<Entry>)
    ensures |r| <= 1
    ensures |r| == 1 <==> Kept(item)
    ensures |r| == 1 ==> r[0].name == item.name && r[0].path == item.path
    ensures |r| == 1 ==> (r[0].Directory? <==> item.kind == DirKind)
  {
    if IsDot(item) then []
    else
      (if item.kind == DirKind then [Directory(item.name, item.path)] else [])
      + (if item.kind == FileKind then [File(item.name, item.path)] else [])
  }

  /** The whole `foreach`: the items collected in iteration order. */
  function Collect(raw: seq<RawItem>): (r: seq<Entry>)
    ensures |r| <= |raw|
  {
    if |raw| == 0 then [] else Collect(raw[..|raw| - 1]) + Classify(raw[|raw| - 1])
  }

  // ---------------------------------------------------------------------
  // Name order

  /** Byte-wise (here: code-point-wise) lexicographic order on names,
      non-strict. */
  predicate NameLe(a: string, b: string) {
    |a| == 0 || (|b| > 0 && (a[0] < b[0] || (a[0] == b[0] && NameLe(a[1..], b[1..]))))
  }

  lemma {:induction false} NameLeReflexive(a: string)
    ensures NameLe(a, a)
  {
    if |a| > 0 {
      NameLeReflexive(a[1..]);
    }
  }

  lemma {:induction false} NameLeTotal(a: string, b: string)
    ensures NameLe(a, b) || NameLe(b, a)
  {
    if |a| > 0 && |b| > 0 && a[0] == b[0] {
      NameLeTotal(a[1..], b[1..]);
    }
  }

  lemma {:induction false} NameLeTransitive(a: string, b: string, c: string)
    requires NameLe(a, b) && NameLe(b, c)
    ensures NameLe(a, c)
  {
    if |a| > 0 && a[0] == b[0] && b[0] == c[0] {
      NameLeTransitive(a[1..], b[1..], c[1..]);
    }
  }

  lemma {:induction false} NameLeAntisymmetric(a: string, b: string)
    requires NameLe(a, b) && NameLe(b, a)
    ensures a == b
  {
    if |a| > 0 {
      NameLeAntisymmetric(a[1..], b[1..]);
      assert a == [a[0]] + a[1..];
      assert b == [b[0]] + b[1..];
    }
  }

  /** Non-decreasing by name. */
  predicate SortedByName(s: seq<Entry>) {
    forall i, j :: 0 <= i < j < |s| ==> NameLe(s[i].name, s[j].name)
  }

  /** Insert `x` before the first entry whose name is not below its own. */
  function Insert(x: Entry, s: seq<Entry>): (r: seq<Entry>)
    requires SortedByName(s)
    ensures SortedByName(r)
    ensures multiset(r) == multiset(s) + multiset{x}
  {
    if |s| == 0 then [x]
    else if NameLe(x.name, s[0].name) then
      assert forall j :: 0 <= j < |s| ==> NameLe(x.name, s[j].name) by {
        forall j | 0 <= j < |s|
          ensures NameLe(x.name, s[j].name)
        {
          if j > 0 {
            NameLeTransitive(x.name, s[0].name, s[j].name);
          }
        }
      }
      [x] + s
    else
      NameLeTotal(x.name, s[0].name);
      var rest := Insert(x, s[1..]);
      assert s == [s[0]] + s[1..];
      LowerBoundKept(s[0].name, s[1..], x, rest);
      [s[0]] + rest
  }

  /** A name below every element of `s` and below `x` is below every element
      of any sequence holding exactly those elements. */
  lemma LowerBoundKept(m: string, s: seq<Entry>, x: Entry, r: seq<Entry>)
    requires forall j :: 0 <= j < |s| ==> NameLe(m, s[j].name)
    requires NameLe(m, x.name)
    requires multiset(r) == multiset(s) + multiset{x}
    ensures forall j :: 0 <= j < |r| ==> NameLe(m, r[j].name)
  {
    forall j | 0 <= j < |r|
      ensures NameLe(m, r[j].name)
    {
      assert r[j] in multiset(r);
      if r[j] != x {
        assert r[j] in multiset(s);
        var k :| 0 <= k < |s| && s[k] == r[j];
      }
    }
  }

  /** `sortFileObjects` (src/FileExplorer.php:232-239): a stable insertion
      sort by name. */
  function SortByName(s: seq<Entry>): (r: seq<Entry>)
    ensures SortedByName(r)
    ensures multiset(r) == multiset(s)
  {
    if |s| == 0 then []
    else
      assert s == [s[0]] + s[1..];
      Insert(s[0], SortByName(s[1..]))
  }

  /** `getDirectoryContents` (src/FileExplorer.php:132-159): exactly the
      entries of the kept items, each tagged by its kind, sorted by name. */
  function GetDirectoryContents(raw: seq<RawItem>): (r: seq<Entry>)
    ensures SortedByName(r)
    ensures multiset(r) == multiset(Collect(raw))
  {
    SortByName(Collect(raw))
  }

  /** The listing holds an entry exactly when some kept raw item yields it:
      dot entries and items that are neither file nor directory are gone,
      and every kept item is there with its name, path and tag. */
  lemma ListingMembership(raw: seq<RawItem>)
    ensures forall e :: e in GetDirectoryContents(raw) <==>
              exists i :: 0 <= i < |raw| && Kept(raw[i]) && EntryOf(raw[i]) == e
  {
    CollectMembership(raw);
    var r := GetDirectoryContents(raw);
    forall e ensures e in r <==> e in Collect(raw) {
      assert e in r <==> e in multiset(r);
    }
  }

  // ---------------------------------------------------------------------
  // Properties of the collection step

  /** One item contributes its entry when kept, and nothing otherwise. */
  lemma ClassifyOne(item: RawItem)
    ensures Classify(item) == if Kept(item) then [EntryOf(item)] else []
  {
  }

  /** Collecting distributes over concatenation of listings. */
  lemma {:induction false} CollectConcat(a: seq<RawItem>, b: seq<RawItem>)
    ensures Collect(a + b) == Collect(a) + Collect(b)
    decreases |b|
  {
    if |b| == 0 {
      assert a + b == a;
    } else {
      var b' := b[..|b| - 1];
      assert (a + b)[..|a + b| - 1] == a + b';
      assert (a + b)[|a + b| - 1] == b[|b| - 1];
      CollectConcat(a, b');
    }
  }

  /** An entry is in the collected listing iff some kept raw item yields it. */
  lemma {:induction false} CollectMembership(raw: seq<RawItem>)
    ensures forall e :: e in Collect(raw) <==> exists i :: 0 <= i < |raw| && Kept(raw[i]) && EntryOf(raw[i]) == e
  {
    if |raw| > 0 {
      var init := raw[..|raw| - 1];
      var last := raw[|raw| - 1];
      CollectMembership(init);
      ClassifyOne(last);
      assert Collect(raw) == Collect(init) + Classify(last);
      forall e
        ensures e in Collect(raw) <==> exists i :: 0 <= i < |raw| && Kept(raw[i]) && EntryOf(raw[i]) == e
      {
        assert e in Collect(raw) <==> e in Collect(init) || e in Classify(last);
        if e in Collect(init) {
          var i :| 0 <= i < |init| && Kept(init[i]) && EntryOf(init[i]) == e;
          assert raw[i] == init[i];
        }
        if exists i :: 0 <= i < |raw| && Kept(raw[i]) && EntryOf(raw[i]) == e {
          var i :| 0 <= i < |raw| && Kept(raw[i]) && EntryOf(raw[i]) == e;
          if i < |init| {
            assert init[i] == raw[i];
          }
        }
      }
    }
  }

  /** When every item is kept, the collection is item-for-item the entries
      in iteration order: one entry per item, nothing lost or added. */
  lemma {:induction false} CollectAllKept(raw: seq<RawItem>)
    requires forall i :: 0 <= i < |raw| ==> Kept(raw[i])
    ensures |Collect(raw)| == |raw|
    ensures forall i :: 0 <= i < |raw| && Kept(raw[i]) ==> Collect(raw)[i] == EntryOf(raw[i])
  {
    if |raw| > 0 {
      var init := raw[..|raw| - 1];
      CollectAllKept(init);
      ClassifyOne(raw[|raw| - 1]);
    }
  }

  /** Dot entries and items that are neither file nor directory add nothing. */
  lemma {:induction false} CollectNoneKept(raw: seq<RawItem>)
    requires forall i :: 0 <= i < |raw| ==> !Kept(raw[i])
    ensures Collect(raw) == []
  {
    if |raw| > 0 {
      CollectNoneKept(raw[..|raw| - 1]);
      ClassifyOne(raw[|raw| - 1]);
    }
  }

  // ---------------------------------------------------------------------
  // Scenarios

  /** A directory holding a file "a.txt" and a subdirectory "b", reported in
      any order together with the dot entries, lists as File "a.txt" then
      Directory "b". */
  lemma ListingFileAndDirectory(dir: string)
    ensures GetDirectoryContents([RawItem(".", dir, DirKind), RawItem("b", dir, DirKind),
                                  RawItem("..", dir, DirKind), RawItem("a.txt", dir, FileKind)])
         == [File("a.txt", dir), Directory("b", dir)]
  {
    var dot := RawItem(".", dir, DirKind);
    var dotdot := RawItem("..", dir, DirKind);
    var b := RawItem("b", dir, DirKind);
    var a := RawItem("a.txt", dir, FileKind);
    CollectConcat([dot, b], [dotdot, a]);
    CollectConcat([dot], [b]);
    CollectConcat([dotdot], [a]);
    assert [dot, b] + [dotdot, a] == [dot, b, dotdot, a];
    assert Collect([dot, b, dotdot, a]) == [Directory("b", dir), File("a.txt", dir)];
    SortTwo(Directory("b", dir), File("a.txt", dir));
  }

  /** The source directory of the repository, as its test expects: the file
      "FileExplorer.php" before the directory "FileObject". */
  lemma ListingSourceDirectory(dir: string)
    ensures GetDirectoryContents([RawItem("FileObject", dir, DirKind), RawItem(".", dir, DirKind),
                                  RawItem("FileExplorer.php", dir, FileKind), RawItem("..", dir, DirKind)])
         == [File("FileExplorer.php", dir), Directory("FileObject", dir)]
  {
    var obj := RawItem("FileObject", dir, DirKind);
    var dot := RawItem(".", dir, DirKind);
    var php := RawItem("FileExplorer.php", dir, FileKind);
    var dotdot := RawItem("..", dir, DirKind);
    var d := Directory("FileObject", dir);
    var f := File("FileExplorer.php", dir);
    assert Collect([obj, dot]) == [d] by {
      assert [obj, dot][..1] == [obj] && [obj][..0] == [];
      assert Classify(obj) == [d] && Classify(dot) == [];
    }
    assert Collect([obj, dot, php]) == [d, f] by {
      assert [obj, dot, php][..2] == [obj, dot];
      assert Classify(php) == [f];
    }
    assert Collect([obj, dot, php, dotdot]) == [d, f] by {
      assert [obj, dot, php, dotdot][..3] == [obj, dot, php];
      assert Classify(dotdot) == [];
    }
    NameLeFirstDifference("FileExplorer.php", "FileObject", 4);
    SortTwo(d, f);
  }

  /** Names that agree up to index `k` and differ there are ordered by the
      characters at `k`, strictly. */
  lemma {:induction false} NameLeFirstDifference(a: string, b: string, k: nat)
    requires k < |a| && k < |b| && a[..k] == b[..k] && a[k] < b[k]
    ensures NameLe(a, b) && !NameLe(b, a)
  {
    if k > 0 {
      assert a[0] == a[..k][0] == b[..k][0] == b[0];
      assert a[1..][..k - 1] == a[..k][1..] == b[..k][1..] == b[1..][..k - 1];
      NameLeFirstDifference(a[1..], b[1..], k - 1);
    }
  }

  /** Two entries given in descending name order come out swapped. */
  lemma SortTwo(x: Entry, y: Entry)
    requires !NameLe(x.name, y.name)
    ensures SortByName([x, y]) == [y, x]
  {
    assert [x, y][1..] == [y];
    assert SortByName([y]) == [y];
  }
}

=== FILE: paths.dfy ===
/** String helpers of the navigator: separator clean-up, trimming, joining of
    path segments, and the last-separator search that `goUp` relies on.
    Paths are plain character strings; nothing here touches a filesystem. */
module Paths {

  /** The characters `joinPaths` hands to PHP's `trim`/`rtrim`: both slashes. */
  const Separators: set<char> := {'/', '\\'}

  /** Only the forward slash: the set `cleanupDirectorySlashes` right-trims. */
  const ForwardSlash: set<char> := {'/'}

  /** A directory string in the shape `cleanupDirectorySlashes` produces:
      no backslash, and exactly one trailing forward slash. */
  predicate NormalizedDir(p: string) {
    && |p| > 0
    && p[|p| - 1] == '/'
    && (|p| > 1 ==> p[|p| - 2] != '/')
    && '\\' !in p
  }

  /** PHP `str_replace('\\', '/', s)`: every backslash becomes a slash. */
  function ReplaceBackslashes(s: string): (r: string)
    ensures |r| == |s|
    ensures forall i :: 0 <= i < |s| ==> r[i] == (if s[i] == '\\' then '/' else s[i])
    ensures '\\' !in r
  {
    if |s| == 0 then ""
    else ReplaceBackslashes(s[..|s| - 1]) + [if s[|s| - 1] == '\\' then '/' else s[|s| - 1]]
  }

  /** PHP `rtrim(s, strip)`: the longest prefix of `s` after which only
      characters of `strip` follow, and which does not itself end in one. */
  function RTrim(s: string, strip: set<char>): (r: string)
    ensures r <= s
    ensures forall i :: |r| <= i < |s| ==> s[i] in strip
    ensures r == [] || r[|r| - 1] !in strip
  {
    if |s| == 0 || s[|s| - 1] !in strip then s else RTrim(s[..|s| - 1], strip)
  }

  /** PHP `ltrim(s, strip)`: the longest suffix of `s` before which only
      characters of `strip` stand, and which does not itself start with one. */
  function LTrim(s: string, strip: set<char>): (r: string)
    ensures |r| <= |s| && r == s[|s| - |r|..]
    ensures forall i :: 0 <= i < |s| - |r| ==> s[i] in strip
    ensures r == [] || r[0] !in strip
  {
    if |s| == 0 || s[0] !in strip then s else LTrim(s[1..], strip)
  }

  /** PHP `trim(s, strip)`: strip from both ends. The result is the left
      trim of `s` cut back to its last character outside `strip`; with the
      contract of `LTrim`, only stripped characters are removed, and only
      from the two ends. */
  function Trim(s: string, strip: set<char>): (r: string)
    ensures r <= LTrim(s, strip)
    ensures forall i :: |r| <= i < |LTrim(s, strip)| ==> LTrim(s, strip)[i] in strip
    ensures r == [] || (r[0] !in strip && r[|r| - 1] !in strip)
  {
    RTrim(LTrim(s, strip), strip)
  }

  /** `cleanupDirectorySlashes` (src/FileExplorer.php:222-225): backslashes
      become slashes, trailing slashes go, and exactly one slash is appended.
      The result keeps the converted input up to its last non-slash and
      only separators of the input are dropped. */
  function CleanupDirectorySlashes(directory: string): (r: string)
    ensures NormalizedDir(r)
    ensures r[..|r| - 1] <= ReplaceBackslashes(directory)
    ensures forall i :: |r| - 1 <= i < |directory| ==> directory[i] in Separators
  {
    var converted := ReplaceBackslashes(directory);
    var kept := RTrim(converted, ForwardSlash);
    assert forall i :: |kept| <= i < |directory| ==> converted[i] == '/';
    kept + "/"
  }

  /** `joinPaths` (src/FileExplorer.php:197-213) as a reference definition:
      the first segment right-trimmed, every later one trimmed on both sides,
      each followed by one slash; no segments give the empty string. */
  function JoinPaths(paths: seq<string>): (r: string)
    ensures r == "" <==> |paths| == 0
    ensures |paths| > 0 ==> r[|r| - 1] == '/'
    ensures |paths| > 0 ==> RTrim(paths[0], Separators) + "/" <= r
  {
    if |paths| == 0 then ""
    else if |paths| == 1 then RTrim(paths[0], Separators) + "/"
    else
      var init := paths[..|paths| - 1];
      assert init[0] == paths[0];
      JoinPaths(init) + Trim(paths[|paths| - 1], Separators) + "/"
  }

  /** The `foreach` loop of `joinPaths` with its `firstPath` flag, step by
      step; it computes exactly the reference definition `JoinPaths`. */
  method JoinPathsLoop(paths: seq<string>) returns (joinedPath: string)
    ensures joinedPath == JoinPaths(paths)
  {
    joinedPath := "";
    var firstPath := true;
    var i := 0;
    while i < |paths|
      invariant 0 <= i <= |paths|
      invariant firstPath <==> i == 0
      invariant joinedPath == JoinPaths(paths[..i])
    {
      var path := paths[i];
      JoinPathsStep(paths, i);
      if firstPath {
        joinedPath := RTrim(path, Separators) + "/";
        firstPath := false;
      } else {
        joinedPath := joinedPath + Trim(path, Separators) + "/";
      }
      i := i + 1;
    }
    assert paths[..i] == paths;
  }

  /** One more segment: the first is right-trimmed, every later one is
      trimmed and appended to the join of those before it. */
  lemma JoinPathsStep(paths: seq<string>, i: nat)
    requires i < |paths|
    ensures JoinPaths(paths[..i + 1]) == if i == 0 then RTrim(paths[i], Separators) + "/"
                                         else JoinPaths(paths[..i]) + Trim(paths[i], Separators) + "/"
  {
    assert paths[..i + 1][..i] == paths[..i];
    assert paths[..i + 1][i] == paths[i];
  }

  /** PHP `substr(s, 0, -1)`: all but the last character ("" stays ""). */
  function DropLast(s: string): (r: string)
    ensures |s| > 0 ==> |r| == |s| - 1
    ensures r <= s
  {
    if |s| == 0 then "" else s[..|s| - 1]
  }

  /** PHP `strrpos(s, c)`, with -1 standing for `false`: the index of the
      last occurrence of `c` in `s`. */
  function LastIndexOf(s: string, c: char): (r: int)
    ensures -1 <= r < |s|
    ensures r >= 0 ==> s[r] == c
    ensures forall j :: r < j < |s| ==> s[j] != c
  {
    if |s| == 0 then -1
    else if s[|s| - 1] == c then |s| - 1
    else LastIndexOf(s[..|s| - 1], c)
  }

  // ---------------------------------------------------------------------
  // Properties of the helpers

  /** A string without backslashes is left alone by the conversion. */
  lemma ReplaceBackslashesNoop(s: string)
    requires '\\' !in s
    ensures ReplaceBackslashes(s) == s
  {
  }

  /** The normalized shape is exactly the set of fixpoints of
      `cleanupDirectorySlashes`. */
  lemma CleanupFixpoint(p: string)
    ensures CleanupDirectorySlashes(p) == p <==> NormalizedDir(p)
  {
    if NormalizedDir(p) {
      ReplaceBackslashesNoop(p);
      var body := p[..|p| - 1];
      assert RTrim(p, ForwardSlash) == RTrim(body, ForwardSlash);
      assert RTrim(body, ForwardSlash) == body;
      assert body + "/" == p;
    }
  }

  /** Normalizing twice is normalizing once. */
  lemma CleanupIdempotent(directory: string)
    ensures CleanupDirectorySlashes(CleanupDirectorySlashes(directory))
         == CleanupDirectorySlashes(directory)
  {
    CleanupFixpoint(CleanupDirectorySlashes(directory));
  }

  /** An input made of separators only (the empty one included) collapses to
      the root "/", and only such an input does. */
  lemma CleanupAllSeparators(directory: string)
    ensures CleanupDirectorySlashes(directory) == "/"
        <==> forall i :: 0 <= i < |directory| ==> directory[i] in Separators
  {
    var converted := ReplaceBackslashes(directory);
    if forall i :: 0 <= i < |directory| ==> directory[i] in Separators {
      RTrimAll(converted, ForwardSlash);
    }
  }

  /** A string made only of `strip` characters right-trims to nothing. */
  lemma {:induction false} RTrimAll(s: string, strip: set<char>)
    requires forall i :: 0 <= i < |s| ==> s[i] in strip
    ensures RTrim(s, strip) == ""
  {
    if |s| > 0 {
      RTrimAll(s[..|s| - 1], strip);
    }
  }

  /** A name without separators, cleaned as a directory, gains one slash. */
  lemma CleanupPlainName(name: string)
    requires |name| > 0
    requires forall i :: 0 <= i < |name| ==> name[i] !in Separators
    ensures CleanupDirectorySlashes(name) == name + "/"
  {
    ReplaceBackslashesNoop(name);
  }

  /** A name without separators survives trimming, with or without one
      trailing slash. */
  lemma TrimPlainName(name: string)
    requires |name| > 0
    requires forall i :: 0 <= i < |name| ==> name[i] !in Separators
    ensures Trim(name, Separators) == name
    ensures Trim(name + "/", Separators) == name
  {
    assert RTrim(name, Separators) == name;
    assert (name + "/")[..|name|] == name;
    assert RTrim(name + "/", Separators) == name;
  }

  /** Joining a relative path onto a normalized directory appends the path,
      trimmed of separators on both ends, and one slash. */
  lemma JoinOntoNormalized(dir: string, path: string)
    requires NormalizedDir(dir)
    ensures JoinPaths([dir, path]) == dir + Trim(path, Separators) + "/"
  {
    var body := dir[..|dir| - 1];
    assert RTrim(dir, Separators) == RTrim(body, Separators);
    assert body == [] || body[|body| - 1] !in Separators;
    assert RTrim(body, Separators) == body;
    assert [dir, path][..1] == [dir];
    assert body + "/" == dir;
  }

  /** Cleaning the part of a backslash-free path before one of its slashes
      gives a prefix of the path up to and including that slash. */
  lemma CleanupBeforeSlash(p: string, i: int)
    requires '\\' !in p
    requires 0 <= i < |p| && p[i] == '/'
    ensures CleanupDirectorySlashes(p[..i]) <= p[..i + 1]
  {
    var d := p[..i];
    ReplaceBackslashesNoop(d);
    var kept := RTrim(d, ForwardSlash);
    var k := |kept|;
    assert k < i ==> d[k] == '/';
    assert p[k] == '/';
    assert kept + "/" == p[..k + 1];
  }

  /** A normalized directory other than the root, trimmed of separators,
      is a non-empty name that neither starts nor ends with a separator and
      holds no backslash. */
  lemma TrimNormalized(d: string)
    requires NormalizedDir(d) && d != "/"
    ensures var name := Trim(d, Separators);
            |name| > 0 && name[|name| - 1] !in Separators && '\\' !in name
  {
    TrimKeepsInner(d, Separators, |d| - 2);
    TrimAddsNothing(d, Separators, '\\');
  }

  /** A string holding a character outside `strip` does not trim to
      nothing. */
  lemma TrimKeepsInner(s: string, strip: set<char>, j: int)
    requires 0 <= j < |s| && s[j] !in strip
    ensures |Trim(s, strip)| > 0
  {
    var left := LTrim(s, strip);
    var k := |s| - |left|;
    assert k <= j;
    assert left[j - k] == s[j];
  }

  /** Trimming introduces no character that was not there. */
  lemma TrimAddsNothing(s: string, strip: set<char>, c: char)
    requires c !in s
    ensures c !in Trim(s, strip)
  {
    var left := LTrim(s, strip);
    var k := |s| - |left|;
    var r := Trim(s, strip);
    forall i | 0 <= i < |r|
      ensures r[i] != c
    {
      assert r[i] == left[i];
      assert left[i] == s[k + i];
    }
  }

  /** Cutting the slash off a normalized directory and cleaning the rest
      gives the directory back. */
  lemma CleanupDropsOneSlash(p: string)
    requires NormalizedDir(p)
    ensures CleanupDirectorySlashes(p[..|p| - 1]) == p
  {
    var body := p[..|p| - 1];
    ReplaceBackslashesNoop(body);
    assert RTrim(body, ForwardSlash) == body;
    assert body + "/" == p;
  }

  /** When `a` ends in `c` and `b` holds no `c`, the last `c` of `a + b` is
      the last character of `a`. */
  lemma LastIndexOfAppend(a: string, b: string, c: char)
    requires |a| > 0 && a[|a| - 1] == c
    requires forall j :: 0 <= j < |b| ==> b[j] != c
    ensures LastIndexOf(a + b, c) == |a| - 1
  {
    var s := a + b;
    assert s[|a| - 1] == c;
  }

  /** Two segments join into the right-trimmed first, a slash, the trimmed
      second and a slash. */
  lemma JoinTwo(first: string, second: string)
    ensures JoinPaths([first, second])
         == RTrim(first, Separators) + "/" + Trim(second, Separators) + "/"
  {
    assert [first, second][..1] == [first];
  }
}
